=== FILE: README.md ===
# raco resolver — a Dafny model

raco drives a generator step by step. The generator yields promises, thunks, nested generators, observables or values a custom hook accepts. raco resolves each one, resumes the generator with the result, and reports the generator's final result. It reports through a trailing callback, through a returned promise, or through nothing at all ("detached" mode). This project models the resolver in `index.js`:

- **the yieldable classifier** `_yieldable`: module `Yieldables`;
- **configuration, argument assembly and mode selection**: module `Entry`, and module `Raco` for one whole `raco(...)` call;
- **the `step`/`next` state machine**: module `Resolver`;
- **the `push`/`all`/`any`/`clear` adapter** around a parallel group: also module `Resolver`;
- **what all of this guarantees**: module `Properties`, with whole runs for concrete generators in `Scenarios`.

A JavaScript value is a `Values.Value`. The model keeps only what the resolver looks at: whether the value is truthy, and which capabilities an object has. The capabilities are a `then` method, a `subscribe` method, `next`/`throw` methods, being callable, and being a generator function.

The generator is an oracle: a function from the inputs it has received so far (`iter.next(val)` or `iter.throw(err)`) to the outcome of the latest resume. An outcome lists the calls the generator body makes on `next` while it runs, in order, then ends with a yield, a return or a throw. `process.nextTick` becomes an explicit FIFO queue of deferred `step` tasks in the state. Everything the outside world can do is an `Event`:

- user code or a parallel group calls `next`, `next.push`, `next.all`, `next.any` or `next.clear`;
- the oldest queued task runs;
- a yieldable's resolution strategy calls its callback.

That callback is `step` itself, not `next`, exactly as at index.js:130.

The central result is `Properties.OuterCallbackAtMostOnce`. Whatever sequence of events follows, the outer callback fires at most once, and `done` holds exactly when it has fired. This holds for the model's catch branch, which is guarded. The branch as written in the source is not guarded; see Findings.

## Model

| member | source | states |
|---|---|---|
| Values.IsFunction | index.js:4-6 | Only objects are callable. |
| Values.IsGenerator | index.js:7-9 | A generator object is exactly an object with `next` and `throw`. The falsy guard rules out every primitive. |
| Values.IsPromise | index.js:10-12 | A thenable is exactly an object with `then`. |
| Values.IsObservable | index.js:13-15 | An observable is exactly an object with `subscribe`. |
| Values.IsGeneratorFunction | index.js:51 | The external generator-function test holds only for objects, and a generator function is callable. |
| Yieldables.Classify | index.js:42-75 | The chosen strategy's test passes, and every strategy tried before it fails. |
| Yieldables.ClassifyIsFirstMatch | index.js:42-75 | The strategy is chosen exactly when its test passes and all earlier tests fail. This is both directions of the first-match rule. |
| Yieldables.CallableThenableIsThenable | index.js:43-58 | A callable thenable is resolved as a promise, not called as a thunk. |
| Yieldables.SubscribableFunctionIsThunk | index.js:51-68 | A plain function that also has `subscribe` is called as a thunk. |
| Yieldables.NoHookNoCustom | index.js:69-73 | Without a custom hook, nothing is classified as custom, and a falsy value is never yieldable. |
| Yieldables.OrFreshError | index.js:47-49 | A rejection reason passes through when it is truthy. Otherwise a fresh error replaces it. The result is never falsy. |
| Yieldables.CallbackArgs | index.js:45-67 | A promise failure or an observable error reaches the callback as one argument: the reason itself when truthy, otherwise a fresh error. A success reaches it as exactly `(null, value)`. A thunk's, nested generator's or hook's own arguments pass through unchanged. |
| Yieldables.FailureIffTruthyError | index.js:45-67 | For promises and observables, the callback's first argument is truthy exactly when the outcome is a failure. |
| Entry.Configure | index.js:18-33 | An own `Promise` option decides promise availability, otherwise the global one does. `prependNextArg` is the truthiness of its option. A custom hook exists exactly when the `yieldable` option is a function. |
| Entry.DefaultConfiguration | index.js:25-33 | With no options: the global promise is used, `next` is appended, and there is no hook. |
| Entry.OwnPromiseOptionWins | index.js:25 | An own `Promise: null` option turns promise mode off even when a global Promise exists. |
| Entry.Assemble | index.js:93-98 | A trailing function becomes the callback. Exactly one `next` is added, at index 0 when prepending and last otherwise. Removing it gives back the caller's other arguments, in order. |
| Entry.SelectMode | index.js:195-213 | Callback mode exactly when there is a callback. Promise mode exactly when there is no callback but a Promise. Detached mode otherwise. |
| Entry.Applied | index.js:100 | A generator object is used as the iterator and receives no arguments. A generator function receives the assembled arguments. |
| Resolver.Initial | index.js:86-100 | A run starts with a live iterator, `done`, `ticking` and `parallel` cleared, nothing queued or delivered, and the state invariant holding. |
| Resolver.TryCatch | index.js:207-211 | Errors are caught exactly in callback and promise mode; only detached mode turns `trycatch` off. |
| Resolver.InputFor | index.js:119 | The generator gets an error injected exactly when the first argument is truthy. Otherwise it is sent the second argument. |
| Resolver.Finish | index.js:109-113 | With the iterator cleared, the callback fires only if `done` is false, and `done` is then set. Otherwise nothing changes. |
| Resolver.CatchAsWritten | index.js:117-124 | As written, a throw sets `done` and always appends one more callback invocation. |
| Resolver.Catch | index.js:117-124 | The guarded catch branch sets `done`. It matches the as-written branch when the callback has not fired, and changes nothing once it has. |
| Resolver.Next | index.js:142-158 | If no step is pending: `ticking` is set and one task with these arguments is queued. If a step is pending and the iterator is live: the iterator is cleared and the multiple-callback error is delivered unless already done. If a step is pending and the iterator has finished: nothing changes. |
| Resolver.Push | index.js:172-175 | A group is created only when there is none, and is reused otherwise. |
| Resolver.All | index.js:180-184 | With no group, `next(null, [])`. Otherwise the group is asked for all results. The slot is empty afterwards. |
| Resolver.Any | index.js:189-193 | With no group, `next(null, null)`. Otherwise the group is asked for the first result. The slot is empty afterwards. |
| Resolver.Settle | index.js:128-132 | A yieldable is handed to its strategy and nothing is queued or delivered. A non-yieldable value goes to `next(null, value)` once the iterator is cleared, and changes nothing while it is live. Once `done`, nothing more is delivered. |
| Resolver.AfterCalls | index.js:114-119 | A live step records exactly one resume input. The calls the generator made on `next` during the resume leave the mode and the handoffs unchanged, and cannot undo a delivery already made. |
| Resolver.Step | index.js:108-134 | On a cleared iterator it is the `!iter` branch. On a live one it resumes the generator exactly once, with the input the first argument selects. Once `done`, no step delivers anything. That holds because the catch branch goes through the guarded `Catch`. |
| Resolver.Fire | index.js:146-149 | An empty queue does nothing. The oldest task on a cleared iterator delivers its queued arguments, unless already done. On a live iterator it resumes the generator with those arguments. |
| Resolver.Clear | index.js:163-165 | The group is dropped and nothing is queued or delivered. |
| Properties.RunKeepsInv | index.js:108-158 | Every event sequence keeps the invariant. At most one task is pending, and exactly while `ticking`. `done` holds exactly when the callback has fired, and it fires at most once. |
| Properties.OuterCallbackAtMostOnce | index.js:108-158 | After any events, the outer callback has fired at most once, `done` says whether it has, and at most one step is pending. |
| Properties.SettledStaysSettled | index.js:109-113 | Once the callback has fired, no events change what was delivered. Once the iterator is cleared, the generator is never resumed again. |
| Properties.StepWhenCleared | index.js:109-113 | A step on a cleared iterator fires the callback with its arguments only if `done` was false. Otherwise it changes nothing. |
| Properties.StepResumesOnce | index.js:114-119 | A step on a live iterator resumes the generator exactly once, with the input chosen by the first argument. |
| Properties.StepThrowIsCaught | index.js:117-124 | In try/catch mode, a throw from the generator's resume (not from a strategy; see Left out) sets `done`, whatever the generator called on `next` first. Unless those calls already delivered, the callback receives exactly the thrown error. No value is classified, and the queue is what the calls left. |
| Properties.StepThrowEscapesWhenDetached | index.js:125-127 | In detached mode, a throw escapes the step. The state is exactly what the resume's calls on `next` left, and nothing more is delivered. |
| Properties.StepYieldHandsOff | index.js:128-130 | A yielded yieldable is handed to its strategy after any calls the resume made on `next`. Beyond those calls, nothing is queued or delivered and the iterator is left as they left it. |
| Properties.StepYieldPlainWaits | index.js:128-132 | A yielded non-yieldable value waits for user code to call `next` if the iterator is still live after the resume's calls. If a second `next` cleared the iterator, the value goes to `next(null, value)`. With no calls, only the resume is recorded. |
| Properties.StepReturnPlainGoesThroughNext | index.js:128-132 | A non-yieldable return value clears the iterator and always goes to `next` as `(null, value)`, after any calls the resume made. It is queued when no task is pending. It is dropped behind an already queued task otherwise. It delivers nothing directly. |
| Properties.ReturnedYieldableReachesCallback | index.js:109-130 | A returned yieldable clears the iterator and is handed to its strategy, after any calls the resume made on `next`. Unless those calls already delivered, the strategy's result reaches the outer callback with exactly the arguments it passed. |
| Properties.FailureIsInjected | index.js:47-49 | A rejection or observable error always resumes the generator by injecting a truthy error. |
| Properties.TaskClearsTickingBeforeStep | index.js:144-149 | A `next` queues exactly one task, and running it is a step with `ticking` cleared and the queue empty. So whatever the generator does, the first `next` it calls during that step is queued, with nothing delivered and the iterator left live. It is not reported as a second callback. If the resume then only yields, that task is all that remains pending. |
| Properties.SecondNextWhileLive | index.js:150-153 | A second `next` while a step is pending delivers the multiple-callback error and abandons the iterator. The still-queued task then does nothing. |
| Properties.FirstQueuedValueWins | index.js:154-157 | After the iterator has finished, a second `next` is dropped and the value queued first is delivered. |
| Properties.YieldableCallbackBypassesGuard | index.js:130 | A strategy's callback resumes the live generator even while a step is pending. A `next` with the same arguments would report the multiple-callback error instead. |
| Properties.PushesShareAGroupUntilAll | index.js:172-184 | Pushes share one group, `all` hands exactly that group over, and the next push creates a new one. |
| Properties.EmptyGroupShortcuts | index.js:180-193 | With no group, `all` queues `(null, [])` and `any` queues `(null, null)`, and neither asks a group for anything. |
| Raco.Launch | index.js:93-213 | One run selects the mode, passes the caller's arguments apart from the callback, and resumes the generator once with `next(undefined)`. The state it leaves satisfies the invariant. |
| Raco.Raco | index.js:224-228 | A run starts exactly for a generator function or a generator object. Any other first argument configures a new resolver. |
| Raco.Delivered | index.js:195-213 | Nothing is delivered before the callback fires. In promise mode the promise rejects with exactly the first argument when it is truthy, and resolves with exactly the second otherwise. In callback mode the callback gets exactly what `step` delivered. In detached mode the result is swallowed. |
| Raco.LaunchCatchesUnlessDetached | index.js:195-213 | `trycatch` stays on exactly when there is a trailing callback or a promise constructor. |
| Raco.LaunchPassesOneNext | index.js:93-100 | A generator function receives exactly one `next`, first when prepending and last otherwise. A generator object receives nothing. |
| Raco.ConfiguredModes | index.js:25-33 | Without a trailing callback, the default configuration gives promise mode when the global Promise is truthy, and detached mode otherwise. An own `Promise: null` option gives detached mode with `trycatch` off. |
| Raco.CallbackWinsOverPromise | index.js:195-197 | A trailing callback selects callback mode whatever the options. |
| Raco.RacoDispatch | index.js:224-228 | A generator function or object starts a run, resumed once with `next(undefined)`. A plain function that is not a generator configures a new resolver. |
| Raco.DeliveryIsFinal | index.js:109-113 | After a launch and any events, at most one delivery is observed, and once there it never changes. |
| Scenarios.ThunkThenReturn | index.js:55-58 | If a yielded thunk resolves to 42 and the generator returns `x + 1`, the callback receives `(null, 43)` exactly once. |
| Scenarios.RejectionPropagates | index.js:43-50 | An unhandled rejection ends the computation with that reason, or with a fresh error if the reason is falsy. The promise rejects with it. |
| Scenarios.MultipleCallbacksReportedOnce | index.js:142-158 | A generator that calls `next` twice synchronously gets the multiple-callback error once. The queued task then adds nothing. |
| Scenarios.SecondCallbackAfterThrow | index.js:117-124 | The as-written catch branch delivers a second callback after the multiple-callback error. The guarded one does not. |
| Scenarios.ParallelAllResult | index.js:172-184 | Two pushes then `all` ask one group. The group's single `next` with the list becomes the computation's result. |

## Behaviour worth knowing

- **The first value queued after a return wins.** Suppose the generator has returned and a value is already queued, by its return or by an earlier `next`. A later `next` before the task runs is dropped (index.js:154-157). If the iterator is still live, a second `next` instead abandons it and delivers the multiple-callback error (index.js:150-153). A `next` after the task ran arrives when `done` is set, so it is ignored. A late call never replaces the result (`Properties.FirstQueuedValueWins`).
- **Yieldable callbacks skip the multiple-callback check.** A yielded thunk, promise or observable is given `step` as its callback, not `next` (index.js:130). If a thunk calls back twice, the generator is resumed twice. Only calls to the `next` handed to the generator go through that check (`Properties.YieldableCallbackBypassesGuard`).
- **Detached mode lets errors escape.** Here no callback was given and no Promise is available. A throw from the generator escapes `step` instead of being delivered (`Properties.StepThrowEscapesWhenDetached`).

## Findings

| source | as written | input that shows it | evidently intended | confidence | as-written member | corrected member |
|---|---|---|---|---|---|---|
| index.js:117-124 | The catch branch sets `done` and calls the callback without checking `done`. | `function* (next) { next(); next(); throw boom }`: the second `next` delivers the multiple-callback error, then the throw calls the callback a second time with `boom`. | The callback fires once. The `!done` guard at index.js:110 and the `done` flag exist for this. | medium, not executed | Resolver.CatchAsWritten, Scenarios.SecondCallbackAfterThrow | Resolver.Catch, Properties.OuterCallbackAtMostOnce |

Another route to the same double callback: a generator throws, and a callback from an earlier yield then injects an error into the closed generator, which rethrows it. The model's `Step` uses the guarded `Catch`. The guarded and as-written branches differ only when the callback has already fired.

## Left out

- `process.nextTick` and the event loop: each computation has its own FIFO task queue. How tasks of different computations interleave is not modelled.
- Real generators, promises and observables: they are oracles and capability flags. The model does not force an oracle to behave like a closed generator after it returns or throws. It also does not stop a generator object, which never receives `next`, from listing calls on it.
- `is-generator-function`: it is the `isGenFn` capability flag.
- Observable disposal (index.js:61-67): only the callback arguments of an emission or error are modelled. Disposal after the first emission is not modelled. Neither is a synchronous emission, which runs before `dispose` is assigned. Every later emission is an event.
- Resolver.Settle: a strategy that throws synchronously is not modelled. This covers `val.then` (index.js:45), a thunk `val(cb)` (index.js:57), `val.subscribe` (index.js:61) and the custom hook (index.js:70). `_yieldable` runs outside the `try` at index.js:118-124, so in every mode such an exception escapes `step` and `done` stays false. From a later step, run by a tick or by a strategy's callback, the exception leaves that tick or callback and nothing is delivered. In promise mode the first step runs inside the Promise executor (index.js:200-205), which turns such an exception into a rejection of the returned promise; in callback and detached mode it leaves `raco(...)`. The model's `Settle` always completes, so the try/catch lemmas cover only throws from the generator's resume.
- A custom hook that returns false but still calls its callback: the hook is modelled only by its decision.
- A strategy calling back synchronously while the generator is still running: the generator would throw "already running", and this is not modelled.
- The `parallels` library: a group is opaque. Its completion is the group calling `next`, which is an ordinary event. Push-order collection for `all` and first-settled for `any` belong to that library and are not modelled.
- `raco.wrap` and `raco.wrapAll` (index.js:237-260): thin closure creation and own-property filtering.
- Re-entering `factory(opts)` from `raco`: `Raco.Raco` only reports `Reconfigure`. `Entry.Configure` models the option normalisation itself.
- `this` binding through `apply`/`call`, and an outer callback that itself throws.
- Where an exception that escapes `step` in detached mode ends up (an uncaught exception, or a throw out of `raco`): the model only records it in `escaped`.
- Promise settlement beyond the first callback invocation: `Raco.Delivered` maps the first delivery through the callback at index.js:201-204.

=== FILE: entry.dfy ===
/** Configuration, argument assembly and run-mode selection: the parts of the
    factory and of `_raco` that run before the first step (index.js:18-33,
    84-100, 195-213, 224-228). */
module Entry {
  import opened Values
  import opened Yieldables

  /** The factory options. `promise` is `Some` exactly when the options object
      has an own `Promise` property; `decides` is what the `yieldable` option
      answers when it is a function. */
  datatype Options = Options(
    promise: Option<Value>,
    prependNextArg: Value,
    yieldable: Value,
    decides: Value -> bool
  )

  /** The normalised, immutable configuration of one resolver instance. */
  datatype Config = Config(hasPromise: bool, prependNextArg: bool, hook: Hook)

  /** `factory(opts)`: `None` stands for a falsy `opts`. */
  function Configure(opts: Option<Options>, globalPromise: Value): (c: Config)
    ensures opts.Some? && opts.value.promise.Some? ==>
              (c.hasPromise <==> Truthy(opts.value.promise.value))
    ensures (opts.None? || opts.value.promise.None?) ==>
              (c.hasPromise <==> Truthy(globalPromise))
    ensures c.prependNextArg <==> opts.Some? && Truthy(opts.value.prependNextArg)
    ensures c.hook.Some? <==> opts.Some? && IsFunction(opts.value.yieldable)
    ensures c.hook.Some? ==> c.hook.value == opts.value.decides
  {
    match opts
    case None => Config(Truthy(globalPromise), false, None)
    case Some(o) =>
      var p := if o.promise.Some? then o.promise.value else globalPromise;
      Config(Truthy(p), Truthy(o.prependNextArg),
             if IsFunction(o.yieldable) then Some(o.decides) else None)
  }

  /** An argument handed to the generator function: one of the caller's
      values, or the resolver's own `next` continuation. */
  datatype Arg = Given(v: Value) | NextFn

  /** The caller's values among the generator's arguments, `next` removed. */
  function Strip(xs: seq<Arg>): seq<Value> {
    if xs == [] then [] else Kept(xs[0]) + Strip(xs[1..])
  }

  function Kept(x: Arg): seq<Value> {
    if x.Given? then [x.v] else []
  }

  function Wrap(vs: seq<Value>): (xs: seq<Arg>)
    ensures |xs| == |vs|
    ensures forall i :: 0 <= i < |vs| ==> xs[i] == Given(vs[i])
  {
    seq(|vs|, i requires 0 <= i < |vs| => Given(vs[i]))
  }

  lemma {:induction false} StripAppend(a: seq<Arg>, b: seq<Arg>)
    ensures Strip(a + b) == Strip(a) + Strip(b)
  {
    if a == [] {
      assert a + b == b;
    } else {
      assert (a + b)[0] == a[0];
      assert (a + b)[1..] == a[1..] + b;
      StripAppend(a[1..], b);
      calc {
        Strip(a + b);
        Kept(a[0]) + Strip(a[1..] + b);
        Kept(a[0]) + (Strip(a[1..]) + Strip(b));
        (Kept(a[0]) + Strip(a[1..])) + Strip(b);
      }
    }
  }

  lemma {:induction false} StripWrap(vs: seq<Value>)
    ensures Strip(Wrap(vs)) == vs
  {
    if vs != [] {
      assert Wrap(vs)[1..] == Wrap(vs[1..]);
      StripWrap(vs[1..]);
    }
  }

  /** The outcome of argument assembly: the popped callback, if any, and the
      arguments the generator function is applied to. */
  datatype Assembled = Assembled(callback: Option<Value>, passed: seq<Arg>)

  /** The caller's remaining arguments with `next` at the front or the back. */
  function WithNext(rest: seq<Value>, prependNextArg: bool): (passed: seq<Arg>)
    ensures |passed| == |rest| + 1
    ensures forall i :: 0 <= i < |passed| ==>
              (passed[i] == NextFn <==> i == (if prependNextArg then 0 else |passed| - 1))
    ensures Strip(passed) == rest
  {
    StripWrap(rest);
    if prependNextArg then
      StripAppend([NextFn], Wrap(rest));
      [NextFn] + Wrap(rest)
    else
      StripAppend(Wrap(rest), [NextFn]);
      Wrap(rest) + [NextFn]
  }

  /** A trailing function argument becomes the callback; `next` is then put at
      the front or the back of what remains (index.js:93-98). */
  function Assemble(args: seq<Value>, prependNextArg: bool): (r: Assembled)
    ensures r.callback.Some? <==> |args| > 0 && IsFunction(args[|args| - 1])
    ensures r.callback.Some? ==> r.callback.value == args[|args| - 1]
    ensures |r.passed| == |args| + 1 - (if r.callback.Some? then 1 else 0)
    ensures forall i :: 0 <= i < |r.passed| ==>
              (r.passed[i] == NextFn <==> i == (if prependNextArg then 0 else |r.passed| - 1))
    ensures Strip(r.passed) == (if r.callback.Some? then args[..|args| - 1] else args)
  {
    var popped := |args| > 0 && IsFunction(args[|args| - 1]);
    var rest := if popped then args[..|args| - 1] else args;
    Assembled(if popped then Some(args[|args| - 1]) else None, WithNext(rest, prependNextArg))
  }

  /** How the outer result is delivered. */
  datatype Mode =
    | CallbackMode   // the caller's callback
    | PromiseMode    // a promise returned to the caller
    | Detached       // a no-op callback, with errors escaping uncaught

  /** Mode selection at index.js:195-213. */
  function SelectMode(hasCallback: bool, hasPromise: bool): (m: Mode)
    ensures m == CallbackMode <==> hasCallback
    ensures m == PromiseMode <==> !hasCallback && hasPromise
    ensures m == Detached <==> !hasCallback && !hasPromise
  {
    if hasCallback then CallbackMode
    else if hasPromise then PromiseMode
    else Detached
  }

  /** `raco(genFn, ...)` runs a computation only for a generator function or a
      generator object; any other first argument configures a new resolver
      (index.js:225). */
  predicate Runs(target: Value) {
    IsGeneratorFunction(target) || IsGenerator(target)
  }

  /** A generator object is used as the iterator as it is; a generator
      function is applied to the assembled arguments (index.js:100). */
  function Applied(target: Value, passed: seq<Arg>): (r: Option<seq<Arg>>)
    ensures r.None? <==> IsGenerator(target)
    ensures r.Some? ==> r.value == passed
  {
    if IsGenerator(target) then None else Some(passed)
  }

  /** With no options at all, the global promise is used, `next` is appended
      and there is no custom hook. */
  lemma DefaultConfiguration(globalPromise: Value)
    ensures Configure(None, globalPromise).hasPromise == Truthy(globalPromise)
    ensures !Configure(None, globalPromise).prependNextArg
    ensures Configure(None, globalPromise).hook.None?
  {
  }

  /** An own `Promise` option wins over the global one, even a falsy one: it
      switches promise mode off. */
  lemma OwnPromiseOptionWins(o: Options, globalPromise: Value)
    requires o.promise == Some(Null)
    ensures !Configure(Some(o), globalPromise).hasPromise
  {
  }
}

=== FILE: properties.dfy ===
/** What the state machine of `_raco` guarantees: the invariant every event
    preserves, what can never be undone, and the behaviour of each branch of
    `step` and `next`. */
module Properties {
  import opened Values
  import opened Yieldables
  import opened Entry
  import opened Resolver

  // ---------------------------------------------------------------------
  // The invariant

  lemma NextKeepsInv(s: State, args: Args)
    requires Inv(s)
    ensures Inv(Next(s, args))
  {
  }

  lemma ApplyCallKeepsInv(s: State, c: Call)
    requires Inv(s)
    ensures Inv(ApplyCall(s, c))
  {
  }

  lemma {:induction false} ApplyCallsKeepsInv(s: State, cs: seq<Call>)
    requires Inv(s)
    ensures Inv(ApplyCalls(s, cs))
    decreases |cs|
  {
    if cs != [] {
      ApplyCallKeepsInv(s, cs[0]);
      ApplyCallsKeepsInv(ApplyCall(s, cs[0]), cs[1..]);
    }
  }

  lemma SettleKeepsInv(hook: Hook, s: State, v: Value)
    requires Inv(s)
    ensures Inv(Settle(hook, s, v))
  {
  }

  lemma StepKeepsInv(cfg: Config, co: Coroutine, s: State, args: Args)
    requires Inv(s)
    ensures Inv(Step(cfg, co, s, args))
  {
    if s.iterLive {
      var h := s.history + [InputFor(args)];
      var o := co(h);
      var s1 := ApplyCalls(s.(history := h), o.calls);
      ApplyCallsKeepsInv(s.(history := h), o.calls);
      match o.result
      case Threw(e) =>
      case Yielded(v) => SettleKeepsInv(cfg.hook, s1, v);
      case Returned(v) => SettleKeepsInv(cfg.hook, s1.(iterLive := false), v);
    }
  }

  lemma FireKeepsInv(cfg: Config, co: Coroutine, s: State)
    requires Inv(s)
    ensures Inv(Fire(cfg, co, s))
  {
    if s.queue != [] {
      StepKeepsInv(cfg, co, s.(ticking := false, queue := s.queue[1..]), s.queue[0]);
    }
  }

  lemma ApplyKeepsInv(cfg: Config, co: Coroutine, s: State, e: Event)
    requires Inv(s)
    ensures Inv(Apply(cfg, co, s, e))
  {
    match e
    case Invoke(c) => ApplyCallKeepsInv(s, c);
    case TaskRuns => FireKeepsInv(cfg, co, s);
    case Resolve(r) => StepKeepsInv(cfg, co, s, CallbackArgs(r));
  }

  lemma {:induction false} RunKeepsInv(cfg: Config, co: Coroutine, s: State, evs: seq<Event>)
    requires Inv(s)
    ensures Inv(Run(cfg, co, s, evs))
    decreases |evs|
  {
    if evs != [] {
      ApplyKeepsInv(cfg, co, s, evs[0]);
      RunKeepsInv(cfg, co, Apply(cfg, co, s, evs[0]), evs[1..]);
    }
  }

  /** Whatever happens, the outer callback fires at most once, `done` records
      exactly whether it has fired, and at most one deferred step is pending. */
  lemma OuterCallbackAtMostOnce(cfg: Config, co: Coroutine, s: State, evs: seq<Event>)
    requires Inv(s)
    ensures |Run(cfg, co, s, evs).outs| <= 1
    ensures Run(cfg, co, s, evs).done <==> |Run(cfg, co, s, evs).outs| == 1
    ensures |Run(cfg, co, s, evs).queue| <= 1
  {
    RunKeepsInv(cfg, co, s, evs);
  }

  // ---------------------------------------------------------------------
  // What is never undone

  /** `r` can follow `s`: the callback log and the resume history only grow;
      once the callback fired nothing more is delivered; once the iterator is
      cleared it is never resumed again. */
  predicate Later(s: State, r: State) {
    && s.outs <= r.outs
    && s.history <= r.history
    && s.groups <= r.groups
    && (s.done ==> r.done && r.outs == s.outs)
    && (!s.iterLive ==> !r.iterLive && r.history == s.history)
    && r.mode == s.mode
  }

  lemma LaterTransitive(a: State, b: State, c: State)
    requires Later(a, b) && Later(b, c)
    ensures Later(a, c)
  {
  }

  lemma ApplyCallIsLater(s: State, c: Call)
    ensures Later(s, ApplyCall(s, c))
    ensures ApplyCall(s, c).history == s.history
    ensures ApplyCall(s, c).handoffs == s.handoffs
  {
  }

  lemma {:induction false} ApplyCallsIsLater(s: State, cs: seq<Call>)
    ensures Later(s, ApplyCalls(s, cs))
    ensures ApplyCalls(s, cs).history == s.history
    ensures ApplyCalls(s, cs).handoffs == s.handoffs
    decreases |cs|
  {
    if cs != [] {
      var t := ApplyCall(s, cs[0]);
      ApplyCallIsLater(s, cs[0]);
      ApplyCallsIsLater(t, cs[1..]);
      LaterTransitive(s, t, ApplyCalls(t, cs[1..]));
    }
  }

  lemma StepIsLater(cfg: Config, co: Coroutine, s: State, args: Args)
    ensures Later(s, Step(cfg, co, s, args))
  {
    if s.iterLive {
      var h := s.history + [InputFor(args)];
      var s0 := s.(history := h);
      ApplyCallsIsLater(s0, co(h).calls);
      var s1 := ApplyCalls(s0, co(h).calls);
      assert Later(s, s0);
      LaterTransitive(s, s0, s1);
    }
  }

  lemma ApplyIsLater(cfg: Config, co: Coroutine, s: State, e: Event)
    ensures Later(s, Apply(cfg, co, s, e))
  {
    match e
    case Invoke(c) => ApplyCallIsLater(s, c);
    case TaskRuns =>
      if s.queue != [] {
        var t := s.(ticking := false, queue := s.queue[1..]);
        StepIsLater(cfg, co, t, s.queue[0]);
      }
    case Resolve(r) => StepIsLater(cfg, co, s, CallbackArgs(r));
  }

  lemma {:induction false} RunIsLater(cfg: Config, co: Coroutine, s: State, evs: seq<Event>)
    ensures Later(s, Run(cfg, co, s, evs))
    decreases |evs|
  {
    if evs != [] {
      var t := Apply(cfg, co, s, evs[0]);
      ApplyIsLater(cfg, co, s, evs[0]);
      RunIsLater(cfg, co, t, evs[1..]);
      LaterTransitive(s, t, Run(cfg, co, t, evs[1..]));
    }
  }

  /** Once the outer callback has fired, no sequence of events makes it fire
      again; once the iterator is cleared, the generator is never resumed. */
  lemma SettledStaysSettled(cfg: Config, co: Coroutine, s: State, evs: seq<Event>)
    ensures s.done ==> Run(cfg, co, s, evs).done && Run(cfg, co, s, evs).outs == s.outs
    ensures !s.iterLive ==> Run(cfg, co, s, evs).history == s.history
  {
    RunIsLater(cfg, co, s, evs);
  }

  // ---------------------------------------------------------------------
  // The branches of `step`

  /** With the iterator cleared, `step` fires the callback only if it has not
      fired, then sets `done` (index.js:109-113). */
  lemma StepWhenCleared(cfg: Config, co: Coroutine, s: State, args: Args)
    requires !s.iterLive
    ensures !s.done ==> Step(cfg, co, s, args).done &&
                        Step(cfg, co, s, args).outs == s.outs + [args]
    ensures s.done ==> Step(cfg, co, s, args) == s
  {
  }

  /** A live iterator is resumed with exactly one input, chosen by the
      truthiness of the first argument; the calls of the resume do not touch
      the history. */
  lemma StepResumesOnce(cfg: Config, co: Coroutine, s: State, args: Args)
    requires s.iterLive
    ensures Step(cfg, co, s, args).history == s.history + [InputFor(args)]
  {
    var h := s.history + [InputFor(args)];
    ApplyCallsIsLater(s.(history := h), co(h).calls);
  }

  /** In try/catch mode a throw from the resume ends the computation, whatever
      the generator called on `next` before throwing: `done` is set, the thrown
      error is what the callback receives unless the calls already delivered,
      and no yielded value is classified (index.js:117-124). */
  lemma StepThrowIsCaught(cfg: Config, co: Coroutine, s: State, args: Args, e: Value)
    requires s.iterLive && TryCatch(s)
    requires co(s.history + [InputFor(args)]).result == Threw(e)
    ensures Step(cfg, co, s, args).done
    ensures !AfterCalls(co, s, args).done ==>
              Step(cfg, co, s, args).outs == AfterCalls(co, s, args).outs + [[e]]
    ensures Step(cfg, co, s, args).handoffs == s.handoffs
    ensures Step(cfg, co, s, args).queue == AfterCalls(co, s, args).queue
  {
    var h := s.history + [InputFor(args)];
    ApplyCallsIsLater(s.(history := h), co(h).calls);
  }

  /** In detached mode the same throw escapes `step`: the state is what the
      calls of the resume left, and nothing more is delivered (index.js:125-127). */
  lemma StepThrowEscapesWhenDetached(cfg: Config, co: Coroutine, s: State, args: Args, e: Value)
    requires s.iterLive && !TryCatch(s)
    requires co(s.history + [InputFor(args)]).result == Threw(e)
    ensures Step(cfg, co, s, args) ==
              AfterCalls(co, s, args).(escaped := AfterCalls(co, s, args).escaped + [e])
  {
  }

  /** A yielded yieldable is handed to its strategy with `step` as callback,
      after whatever the resume called on `next`; nothing further is queued or
      delivered (index.js:128-130). */
  lemma StepYieldHandsOff(cfg: Config, co: Coroutine, s: State, args: Args, v: Value)
    requires s.iterLive
    requires co(s.history + [InputFor(args)]).result == Yielded(v)
    requires Classify(v, cfg.hook) != NotYieldable
    ensures Step(cfg, co, s, args).handoffs == s.handoffs + [Handoff(Classify(v, cfg.hook), v)]
    ensures Step(cfg, co, s, args).iterLive == AfterCalls(co, s, args).iterLive
    ensures Step(cfg, co, s, args).queue == AfterCalls(co, s, args).queue
    ensures Step(cfg, co, s, args).outs == AfterCalls(co, s, args).outs
  {
  }

  /** A yielded non-yieldable value: if the iterator is still live after the
      calls of the resume, the generator waits for user code to call `next`;
      if a second `next` cleared it, the value goes to `next(null, value)`
      (index.js:128-132). */
  lemma StepYieldPlainWaits(cfg: Config, co: Coroutine, s: State, args: Args, v: Value)
    requires s.iterLive
    requires co(s.history + [InputFor(args)]).result == Yielded(v)
    requires Classify(v, cfg.hook) == NotYieldable
    ensures AfterCalls(co, s, args).iterLive ==> Step(cfg, co, s, args) == AfterCalls(co, s, args)
    ensures !AfterCalls(co, s, args).iterLive ==>
              Step(cfg, co, s, args) == Next(AfterCalls(co, s, args), [Null, v])
    ensures co(s.history + [InputFor(args)]).calls == [] ==>
              Step(cfg, co, s, args) == s.(history := s.history + [InputFor(args)])
  {
  }

  /** A non-yieldable return value clears the iterator and is always passed
      to `next` as `(null, value)` (index.js:128, 132): it is queued when no
      task is pending, and dropped behind the one already queued otherwise. */
  lemma StepReturnPlainGoesThroughNext(cfg: Config, co: Coroutine, s: State, args: Args, v: Value)
    requires s.iterLive
    requires co(s.history + [InputFor(args)]).result == Returned(v)
    requires Classify(v, cfg.hook) == NotYieldable
    ensures Step(cfg, co, s, args) ==
              Next(AfterCalls(co, s, args).(iterLive := false), [Null, v])
    ensures !Step(cfg, co, s, args).iterLive
    ensures Step(cfg, co, s, args).ticking
    ensures Step(cfg, co, s, args).outs == AfterCalls(co, s, args).outs
    ensures !AfterCalls(co, s, args).ticking ==>
              Step(cfg, co, s, args).queue == AfterCalls(co, s, args).queue + [[Null, v]]
    ensures AfterCalls(co, s, args).ticking ==>
              Step(cfg, co, s, args).queue == AfterCalls(co, s, args).queue
  {
  }

  /** A returned yieldable is resolved into `step`, whatever the resume called
      on `next`; its result then reaches the outer callback through the `!iter`
      branch unless the calls already delivered. */
  lemma ReturnedYieldableReachesCallback(cfg: Config, co: Coroutine, s: State, args: Args,
                                         v: Value, res: Resolution)
    requires s.iterLive
    requires co(s.history + [InputFor(args)]).result == Returned(v)
    requires Classify(v, cfg.hook) != NotYieldable
    ensures !Step(cfg, co, s, args).iterLive
    ensures Step(cfg, co, s, args).handoffs == s.handoffs + [Handoff(Classify(v, cfg.hook), v)]
    ensures !AfterCalls(co, s, args).done ==>
              Apply(cfg, co, Step(cfg, co, s, args), Resolve(res)).outs ==
              AfterCalls(co, s, args).outs + [CallbackArgs(res)]
    ensures AfterCalls(co, s, args).done ==>
              Apply(cfg, co, Step(cfg, co, s, args), Resolve(res)).outs == AfterCalls(co, s, args).outs
  {
  }

  /** A rejection or an observable error always resumes the generator by
      injecting a truthy error, never by sending a value. */
  lemma FailureIsInjected(cfg: Config, co: Coroutine, s: State, res: Resolution)
    requires s.iterLive
    requires res.Rejected? || res.Failed?
    ensures Apply(cfg, co, s, Resolve(res)).history == s.history + [Inject(OrFreshError(res.reason))]
    ensures Truthy(OrFreshError(res.reason))
  {
    StepResumesOnce(cfg, co, s, CallbackArgs(res));
  }

  // ---------------------------------------------------------------------
  // The tick guard

  /** `next` outside a pending step queues exactly one task carrying its
      arguments. Running that task clears `ticking` before stepping, so
      whatever the generator then does, a `next` it calls first during that
      step is queued again rather than treated as a second callback
      (index.js:144-149). A resume that only calls `next` and yields is the
      worked case: the task it queues is the only thing left pending. */
  lemma TaskClearsTickingBeforeStep(cfg: Config, co: Coroutine, s: State, a: Args, b: Args)
    requires Inv(s) && !s.ticking && s.iterLive
    requires |co(s.history + [InputFor(a)]).calls| > 0
    requires co(s.history + [InputFor(a)]).calls[0] == CallNext(b)
    ensures Next(s, a).queue == [a]
    ensures Fire(cfg, co, Next(s, a)) ==
              Step(cfg, co, Next(s, a).(ticking := false, queue := []), a)
    ensures var h := s.history + [InputFor(a)];
            var u := Next(s, a).(ticking := false, queue := [], history := h);
            && ApplyCall(u, CallNext(b)).queue == [b]
            && ApplyCall(u, CallNext(b)).ticking
            && ApplyCall(u, CallNext(b)).outs == s.outs
            && ApplyCall(u, CallNext(b)).iterLive
    ensures co(s.history + [InputFor(a)]).calls == [CallNext(b)] &&
            co(s.history + [InputFor(a)]).result.Yielded? ==>
              && Fire(cfg, co, Next(s, a)).queue == [b]
              && Fire(cfg, co, Next(s, a)).iterLive
              && Fire(cfg, co, Next(s, a)).outs == s.outs
  {
    var t := Next(s, a);
    assert t.queue == [a];
    var u := t.(ticking := false, queue := []);
    assert t.queue[1..] == [];
    assert Fire(cfg, co, t) == Step(cfg, co, u, a);
    var h := u.history + [InputFor(a)];
    assert h == s.history + [InputFor(a)];
    if co(h).calls == [CallNext(b)] {
      assert ApplyCalls(u.(history := h), [CallNext(b)]) == Next(u.(history := h), b);
    }
  }

  /** A second `next` while a step is pending and the iterator is live
      abandons the iterator and reports the multiple-callback error; the task
      still queued then does nothing (index.js:150-153, 109-113). */
  lemma SecondNextWhileLive(cfg: Config, co: Coroutine, s: State, a: Args, b: Args)
    requires Inv(s) && !s.ticking && s.iterLive && !s.done
    ensures Next(Next(s, a), b).outs == s.outs + [[MultipleCallbacksError]]
    ensures !Next(Next(s, a), b).iterLive
    ensures Fire(cfg, co, Next(Next(s, a), b)).outs == s.outs + [[MultipleCallbacksError]]
    ensures Fire(cfg, co, Next(Next(s, a), b)).history == s.history
  {
  }

  /** A second `next` after the iterator finished is dropped: the value queued
      first is the one the callback receives (index.js:154-157). */
  lemma FirstQueuedValueWins(cfg: Config, co: Coroutine, s: State, a: Args, b: Args)
    requires Inv(s) && !s.ticking && !s.iterLive && !s.done
    ensures Next(Next(s, a), b) == Next(s, a)
    ensures Fire(cfg, co, Next(Next(s, a), b)).outs == s.outs + [a]
  {
  }

  /** Yieldable callbacks are wired to `step`, not `next`: even while a step is
      pending, a strategy calling back resumes the live generator instead of
      raising the multiple-callback error that `next` would raise. */
  lemma YieldableCallbackBypassesGuard(cfg: Config, co: Coroutine, s: State, res: Resolution)
    requires Inv(s) && s.ticking && s.iterLive && !s.done
    ensures Apply(cfg, co, s, Resolve(res)).history == s.history + [InputFor(CallbackArgs(res))]
    ensures Apply(cfg, co, s, Invoke(CallNext(CallbackArgs(res)))).history == s.history
    ensures Apply(cfg, co, s, Invoke(CallNext(CallbackArgs(res)))).outs == s.outs + [[MultipleCallbacksError]]
  {
    StepResumesOnce(cfg, co, s, CallbackArgs(res));
  }

  // ---------------------------------------------------------------------
  // The parallel adapter

  /** Pushes share one group until `all` hands it to the group machinery; the
      next push then starts a fresh group. */
  lemma PushesShareAGroupUntilAll(s: State)
    requires s.parallel.None?
    ensures Push(Push(s)).parallel == Some(s.groups)
    ensures All(Push(Push(s))).requests == s.requests + [AllOf(s.groups)]
    ensures Push(All(Push(Push(s)))).parallel == Some(s.groups + 1)
  {
  }

  /** `all` and `any` with no group deliver through `next` at once: an empty
      list, or `null`. */
  lemma EmptyGroupShortcuts(s: State)
    requires Inv(s) && s.parallel.None? && !s.ticking
    ensures All(s).queue == [[Null, List([])]]
    ensures Any(s).queue == [[Null, Null]]
    ensures All(s).requests == s.requests && Any(s).requests == s.requests
  {
  }
}

=== FILE: raco.dfy ===
/** One call of `raco(genFn, ...args)`: dispatch, argument assembly, mode
    selection and the first step (index.js:84-100, 195-213, 224-228), and how
    the outer result reaches the caller in each mode. */
module Raco {
  import opened Values
  import opened Entry
  import opened Resolver
  import opened Properties

  /** A started computation: its mode, the arguments the generator function
      was applied to (`None` for a generator object, which receives none), and
      the state after the first step. */
  datatype Started = Started(mode: Mode, passed: Option<seq<Arg>>, state: State)

  /** `raco(x, ...)`: a new resolver for a non-generator `x`, else a run. */
  datatype Invocation = Reconfigure | Computation(started: Started)

  /** `_raco(genFn, args)` followed by the initial `step()`. */
  function Launch(cfg: Config, co: Coroutine, target: Value, args: seq<Value>): (r: Started)
    ensures r.mode == CallbackMode <==> |args| > 0 && IsFunction(args[|args| - 1])
    ensures r.mode == PromiseMode <==> !(|args| > 0 && IsFunction(args[|args| - 1])) && cfg.hasPromise
    ensures r.passed.None? <==> IsGenerator(target)
    ensures r.passed.Some? ==>
              Strip(r.passed.value) == (if r.mode == CallbackMode then args[..|args| - 1] else args)
    ensures r.state.mode == r.mode
    ensures r.state == Step(cfg, co, Initial(r.mode), [])
    ensures r.state.history == [Send(Undefined)]
    ensures Inv(r.state)
  {
    var a := Assemble(args, cfg.prependNextArg);
    var mode := SelectMode(a.callback.Some?, cfg.hasPromise);
    var s0 := Initial(mode);
    StepKeepsInv(cfg, co, s0, []);
    StepResumesOnce(cfg, co, s0, []);
    StepIsLater(cfg, co, s0, []);
    Started(mode, Applied(target, a.passed), Step(cfg, co, s0, []))
  }

  /** `raco(target, ...args)` (index.js:224-228). */
  function Raco(cfg: Config, co: Coroutine, target: Value, args: seq<Value>): (r: Invocation)
    ensures r.Reconfigure? <==> !IsGeneratorFunction(target) && !IsGenerator(target)
    ensures r.Computation? ==> r.started == Launch(cfg, co, target, args)
  {
    if !Runs(target) then Reconfigure else Computation(Launch(cfg, co, target, args))
  }

  /** `trycatch` stays on exactly when there is a callback or a promise
      constructor; otherwise the run gets the no-op callback with throws
      escaping (index.js:207-211). */
  lemma LaunchCatchesUnlessDetached(cfg: Config, co: Coroutine, target: Value, args: seq<Value>)
    ensures TryCatch(Launch(cfg, co, target, args).state) <==>
              (|args| > 0 && IsFunction(args[|args| - 1])) || cfg.hasPromise
  {
  }

  /** A generator function receives exactly one `next`, first when the
      configuration prepends it and last otherwise; a generator object
      receives nothing. */
  lemma LaunchPassesOneNext(cfg: Config, co: Coroutine, target: Value, args: seq<Value>)
    ensures IsGenerator(target) ==> Launch(cfg, co, target, args).passed.None?
    ensures !IsGenerator(target) ==>
              && Launch(cfg, co, target, args).passed.Some?
              && var p := Launch(cfg, co, target, args).passed.value;
                 && |p| >= 1
                 && forall i :: 0 <= i < |p| ==>
                      (p[i] == NextFn <==> i == (if cfg.prependNextArg then 0 else |p| - 1))
  {
    var a := Assemble(args, cfg.prependNextArg);
    assert Launch(cfg, co, target, args).passed == Applied(target, a.passed);
  }

  /** Configuration decides the mode of a run without a trailing callback: the
      default configuration with a global Promise returns a promise, and an own
      `Promise: null` option makes the run detached, with `trycatch` off. */
  lemma ConfiguredModes(co: Coroutine, target: Value, args: seq<Value>, g: Value, o: Options)
    requires !(|args| > 0 && IsFunction(args[|args| - 1]))
    ensures Truthy(g) ==> Launch(Configure(None, g), co, target, args).mode == PromiseMode
    ensures !Truthy(g) ==> Launch(Configure(None, g), co, target, args).mode == Detached
    ensures o.promise == Some(Null) ==>
              && Launch(Configure(Some(o), g), co, target, args).mode == Detached
              && !TryCatch(Launch(Configure(Some(o), g), co, target, args).state)
  {
  }

  /** A trailing callback selects callback mode whatever the configuration. */
  lemma CallbackWinsOverPromise(o: Option<Options>, g: Value, co: Coroutine,
                                target: Value, args: seq<Value>)
    requires |args| > 0 && IsFunction(args[|args| - 1])
    ensures Launch(Configure(o, g), co, target, args).mode == CallbackMode
  {
  }

  /** `raco` starts a run, resumed once with `next(undefined)`, for a generator
      function or object; a plain function such as a thunk, or any other value,
      configures a new resolver instead. */
  lemma RacoDispatch(cfg: Config, co: Coroutine, target: Value, args: seq<Value>)
    ensures (IsGeneratorFunction(target) || IsGenerator(target)) ==>
              && Raco(cfg, co, target, args).Computation?
              && Raco(cfg, co, target, args).started.state.history == [Send(Undefined)]
    ensures IsFunction(target) && !IsGeneratorFunction(target) && !IsGenerator(target) ==>
              Raco(cfg, co, target, args) == Reconfigure
  {
  }

  /** What the caller observes of a computation. */
  datatype Delivery =
    | Waiting                 // nothing delivered yet
    | CalledBack(args: Args)  // callback mode: the callback's arguments
    | Resolved(value: Value)  // promise mode: fulfilled
    | RejectedWith(error: Value) // promise mode: rejected
    | Swallowed               // detached mode: the no-op callback ran

  /** The promise-mode callback rejects on a truthy error and resolves
      otherwise (index.js:201-204); the other modes pass results through or
      drop them. */
  function Delivered(s: State): (d: Delivery)
    ensures s.outs == [] <==> d == Waiting
    ensures d.RejectedWith? ==> Truthy(d.error) && s.mode == PromiseMode
    ensures d.RejectedWith? ==> d.error == ArgAt(s.outs[0], 0)
    ensures d.Resolved? ==> s.mode == PromiseMode && !Truthy(ArgAt(s.outs[0], 0))
    ensures d.Resolved? ==> d.value == ArgAt(s.outs[0], 1)
    ensures s.outs != [] && s.mode == PromiseMode ==>
              (d.RejectedWith? <==> Truthy(ArgAt(s.outs[0], 0))) && (d.RejectedWith? || d.Resolved?)
    ensures s.outs != [] && s.mode == CallbackMode ==> d == CalledBack(s.outs[0])
    ensures s.outs != [] && s.mode == Detached ==> d == Swallowed
  {
    if s.outs == [] then Waiting
    else
      match s.mode
      case CallbackMode => CalledBack(s.outs[0])
      case PromiseMode =>
        var err := ArgAt(s.outs[0], 0);
        if Truthy(err) then RejectedWith(err) else Resolved(ArgAt(s.outs[0], 1))
      case Detached => Swallowed
  }

  /** Whatever events follow a launch, the caller observes at most one
      delivery, and once it is there it never changes. */
  lemma DeliveryIsFinal(cfg: Config, co: Coroutine, target: Value, args: seq<Value>,
                        evs: seq<Event>, more: seq<Event>)
    ensures |Run(cfg, co, Launch(cfg, co, target, args).state, evs).outs| <= 1
    ensures var s := Run(cfg, co, Launch(cfg, co, target, args).state, evs);
            Delivered(s) != Waiting ==> Delivered(Run(cfg, co, s, more)) == Delivered(s)
  {
    var s0 := Launch(cfg, co, target, args).state;
    OuterCallbackAtMostOnce(cfg, co, s0, evs);
    RunKeepsInv(cfg, co, s0, evs);
    var s := Run(cfg, co, s0, evs);
    SettledStaysSettled(cfg, co, s, more);
    RunIsLater(cfg, co, s, more);
  }
}

=== FILE: resolver.dfy ===
/** The per-computation state machine of `_raco`: `step`, `next`, the tick
    queue that stands in for `process.nextTick`, and the `push`/`all`/`any`/
    `clear` adapter around the opaque parallel group (index.js:84-193). */
module Resolver {
  import opened Values
  import opened Yieldables
  import opened Entry

  /** How the generator is resumed: `iter.next(val)` or `iter.throw(err)`. */
  datatype Input = Send(value: Value) | Inject(error: Value)

  /** A call the generator body (or any other user code) makes on the `next`
      continuation it was given. */
  datatype Call =
    | CallNext(args: Args)   // next(err, val, ...)
    | CallPush               // next.push()
    | CallAll                // next.all()
    | CallAny                // next.any()
    | CallClear              // next.clear()

  /** What one resume of the generator produces: `{done: false, value}`,
      `{done: true, value}`, or a thrown exception. */
  datatype Resumed = Yielded(value: Value) | Returned(value: Value) | Threw(error: Value)

  /** One resume: the calls the body makes synchronously while running, in
      order, then how the resume ends. */
  datatype Outcome = Outcome(calls: seq<Call>, result: Resumed)

  /** The generator as an oracle: the outcome of the latest resume, given every
      input it has received so far (the latest one last). */
  type Coroutine = seq<Input> -> Outcome

  /** What the opaque parallel group was asked to do with `next`. */
  datatype Request = AllOf(group: nat) | AnyOf(group: nat)

  /** A yielded value handed to its resolution strategy together with `step`. */
  datatype Handoff = Handoff(kind: Kind, value: Value)

  /** The closure state of one `_raco` call, plus logs of what it did.
      - `iterLive`: `iter` is not null;
      - `queue`: the deferred `step` tasks, oldest first;
      - `parallel`: the current group, named by its creation index, and
        `groups` the number of groups created so far;
      - `history`: every input the generator has been resumed with;
      - `outs`: every invocation of the outer callback;
      - `escaped`: exceptions that escaped `step` in detached mode. */
  datatype State = State(
    mode: Mode,
    iterLive: bool,
    done: bool,
    ticking: bool,
    queue: seq<Args>,
    parallel: Option<nat>,
    groups: nat,
    requests: seq<Request>,
    history: seq<Input>,
    handoffs: seq<Handoff>,
    outs: seq<Args>,
    escaped: seq<Value>
  )

  /** The state right after `iter` is obtained, before the first step: the
      iterator is live, nothing is pending, no group exists, the callback has
      not fired, and the invariant already holds. */
  function Initial(mode: Mode): (r: State)
    ensures r.mode == mode && r.iterLive && !r.done && !r.ticking
    ensures r.queue == [] && r.parallel.None? && r.groups == 0
    ensures r.outs == [] && r.history == [] && r.handoffs == [] && r.escaped == []
    ensures Inv(r)
  {
    State(mode, true, false, false, [], None, 0, [], [], [], [], [])
  }

  /** `trycatch` is turned off only when neither a callback nor a promise
      constructor is available. */
  predicate TryCatch(s: State): (b: bool)
    ensures b <==> s.mode.CallbackMode? || s.mode.PromiseMode?
  {
    s.mode != Detached
  }

  /** The state invariant: at most one deferred step is pending, and exactly
      while `ticking`; `done` exactly when the outer callback has fired, which
      it has at most once; the current group is one that was created. */
  predicate Inv(s: State) {
    && |s.queue| <= 1
    && (s.ticking <==> |s.queue| == 1)
    && (s.done <==> |s.outs| == 1)
    && |s.outs| <= 1
    && (s.parallel.Some? ==> s.parallel.value < s.groups)
  }

  /** The input a step resumes the generator with (index.js:119): a truthy
      first argument is thrown into it, otherwise the second is sent. */
  function InputFor(args: Args): (i: Input)
    ensures i.Inject? <==> Truthy(ArgAt(args, 0))
    ensures i.Inject? ==> i.error == ArgAt(args, 0)
    ensures i.Send? ==> i.value == ArgAt(args, 1)
  {
    var err := ArgAt(args, 0);
    if Truthy(err) then Inject(err) else Send(ArgAt(args, 1))
  }

  /** The `!iter` branch of `step`: the outer callback receives the arguments
      only if it has not fired yet (index.js:109-113). */
  function Finish(s: State, args: Args): (r: State)
    ensures !s.done ==> r.done && r.outs == s.outs + [args]
    ensures s.done ==> r == s
    ensures r.iterLive == s.iterLive && r.queue == s.queue && r.ticking == s.ticking
    ensures r.history == s.history && r.parallel == s.parallel
  {
    if s.done then s else s.(done := true, outs := s.outs + [args])
  }

  /** The catch branch of `step` as written (index.js:121-123): `done` is set
      and the callback is invoked whether or not it already fired. */
  function CatchAsWritten(s: State, e: Value): (r: State)
    ensures r.done
    ensures r.outs == s.outs + [[e]]
  {
    s.(done := true, outs := s.outs + [[e]])
  }

  /** The catch branch with the evident intent of the `done` flag: the thrown
      error is delivered through the same once-only guard as every other
      terminal result. It agrees with `CatchAsWritten` whenever the callback
      has not fired yet. */
  function Catch(s: State, e: Value): (r: State)
    ensures r.done
    ensures !s.done ==> r == CatchAsWritten(s, e)
    ensures s.done ==> r == s
  {
    Finish(s, [e])
  }

  /** `next(...)` (index.js:142-158). When no step is pending, one task carrying
      the arguments is queued. When one is pending and the generator is still
      live, it is abandoned and the multiple-callback error goes to the outer
      callback. When one is pending and the generator is finished, the call is
      dropped. */
  function Next(s: State, args: Args): (r: State)
    ensures !s.ticking ==>
              && r.ticking && r.queue == s.queue + [args]
              && r.iterLive == s.iterLive && r.done == s.done && r.outs == s.outs
    ensures s.ticking && s.iterLive ==>
              && !r.iterLive && r.done && r.ticking && r.queue == s.queue
              && r.outs == s.outs + (if s.done then [] else [[MultipleCallbacksError]])
    ensures s.ticking && !s.iterLive ==> r == s
    ensures r.history == s.history && r.parallel == s.parallel && r.groups == s.groups
  {
    if !s.ticking then
      s.(ticking := true, queue := s.queue + [args])
    else if s.iterLive then
      Finish(s.(iterLive := false), [MultipleCallbacksError])
    else
      s.(iterLive := false)
  }

  /** `next.push()`: the group is created only when there is none, and reused
      otherwise (index.js:172-175). The slot it returns belongs to
      `r.parallel.value`. */
  function Push(s: State): (r: State)
    ensures r.parallel.Some?
    ensures s.parallel.Some? ==> r == s
    ensures s.parallel.None? ==> r.parallel == Some(s.groups) && r.groups == s.groups + 1
    ensures r.queue == s.queue && r.outs == s.outs && r.iterLive == s.iterLive
  {
    if s.parallel.Some? then s
    else s.(parallel := Some(s.groups), groups := s.groups + 1)
  }

  /** `next.all()` (index.js:180-184): with no group, `next(null, [])`;
      otherwise the group is asked to call `next` with all results, and the
      slot is reset. */
  function All(s: State): (r: State)
    ensures r.parallel.None?
    ensures s.parallel.None? ==> r == Next(s, [Null, List([])])
    ensures s.parallel.Some? ==>
              && r.requests == s.requests + [AllOf(s.parallel.value)]
              && r.queue == s.queue && r.outs == s.outs && r.iterLive == s.iterLive
  {
    if s.parallel.None? then Next(s, [Null, List([])])
    else s.(requests := s.requests + [AllOf(s.parallel.value)], parallel := None)
  }

  /** `next.any()` (index.js:189-193): with no group, `next(null, null)`;
      otherwise the group is asked to call `next` with the first result, and
      the slot is reset. */
  function Any(s: State): (r: State)
    ensures r.parallel.None?
    ensures s.parallel.None? ==> r == Next(s, [Null, Null])
    ensures s.parallel.Some? ==>
              && r.requests == s.requests + [AnyOf(s.parallel.value)]
              && r.queue == s.queue && r.outs == s.outs && r.iterLive == s.iterLive
  {
    if s.parallel.None? then Next(s, [Null, Null])
    else s.(requests := s.requests + [AnyOf(s.parallel.value)], parallel := None)
  }

  /** `next.clear()` (index.js:163-165): the group is dropped unsettled. */
  function Clear(s: State): (r: State)
    ensures r.parallel.None?
    ensures r.queue == s.queue && r.outs == s.outs && r.requests == s.requests
  {
    s.(parallel := None)
  }

  function ApplyCall(s: State, c: Call): State {
    match c
    case CallNext(args) => Next(s, args)
    case CallPush => Push(s)
    case CallAll => All(s)
    case CallAny => Any(s)
    case CallClear => Clear(s)
  }

  /** The calls of one resume, performed in order. */
  function ApplyCalls(s: State, cs: seq<Call>): (r: State)
    ensures r.history == s.history && r.mode == s.mode && r.handoffs == s.handoffs
    ensures s.done ==> r.done && r.outs == s.outs
    ensures !s.iterLive ==> !r.iterLive
    decreases |cs|
  {
    if cs == [] then s else ApplyCalls(ApplyCall(s, cs[0]), cs[1..])
  }

  /** index.js:130-132: a yieldable value is handed to its strategy with `step`
      as the callback; a non-yieldable one is passed to `next` once the
      iterator is cleared, and otherwise waits for user code to call `next`. */
  function Settle(hook: Hook, s: State, v: Value): (r: State)
    ensures Classify(v, hook) != NotYieldable ==>
              && r.handoffs == s.handoffs + [Handoff(Classify(v, hook), v)]
              && r.queue == s.queue && r.outs == s.outs && r.iterLive == s.iterLive
    ensures Classify(v, hook) == NotYieldable && !s.iterLive ==> r == Next(s, [Null, v])
    ensures Classify(v, hook) == NotYieldable && s.iterLive ==> r == s
    ensures r.history == s.history && r.mode == s.mode
    ensures s.done ==> r.done && r.outs == s.outs
  {
    var k := Classify(v, hook);
    if k != NotYieldable then s.(handoffs := s.handoffs + [Handoff(k, v)])
    else if !s.iterLive then Next(s, [Null, v])
    else s
  }

  /** The state of a live step once the resume has returned or thrown: the
      input is recorded and every call the generator made on `next` during
      the resume has been applied, in order (index.js:114-119). */
  function AfterCalls(co: Coroutine, s: State, args: Args): (r: State)
    ensures r.history == s.history + [InputFor(args)]
    ensures r.mode == s.mode && r.handoffs == s.handoffs
    ensures s.done ==> r.done && r.outs == s.outs
  {
    var h := s.history + [InputFor(args)];
    ApplyCalls(s.(history := h), co(h).calls)
  }

  /** `step(err, val, ...)` (index.js:108-134). */
  function Step(cfg: Config, co: Coroutine, s: State, args: Args): (r: State)
    ensures !s.iterLive ==> r == Finish(s, args)
    ensures s.iterLive ==> r.history == s.history + [InputFor(args)]
    ensures r.mode == s.mode
    ensures s.done ==> r.done && r.outs == s.outs
  {
    if !s.iterLive then Finish(s, args)
    else
      var s1 := AfterCalls(co, s, args);
      match co(s.history + [InputFor(args)]).result
      case Threw(e) =>
        if TryCatch(s1) then Catch(s1, e) else s1.(escaped := s1.escaped + [e])
      case Yielded(v) => Settle(cfg.hook, s1, v)
      case Returned(v) => Settle(cfg.hook, s1.(iterLive := false), v)
  }

  /** The oldest deferred task runs: it clears `ticking`, then steps with the
      arguments `next` received (index.js:146-149). */
  function Fire(cfg: Config, co: Coroutine, s: State): (r: State)
    ensures s.queue == [] ==> r == s
    ensures s.queue != [] && !s.iterLive ==>
              r.outs == (if s.done then s.outs else s.outs + [s.queue[0]])
    ensures s.queue != [] && s.iterLive ==> r.history == s.history + [InputFor(s.queue[0])]
    ensures s.done ==> r.outs == s.outs
  {
    if s.queue == [] then s
    else Step(cfg, co, s.(ticking := false, queue := s.queue[1..]), s.queue[0])
  }

  /** Everything that can happen to a computation from outside. */
  datatype Event =
    | Invoke(call: Call)            // user code or a parallel group calls `next`
    | TaskRuns                      // the event loop runs the oldest deferred task
    | Resolve(resolution: Resolution) // a yieldable's strategy calls `step`

  function Apply(cfg: Config, co: Coroutine, s: State, e: Event): State {
    match e
    case Invoke(c) => ApplyCall(s, c)
    case TaskRuns => Fire(cfg, co, s)
    case Resolve(r) => Step(cfg, co, s, CallbackArgs(r))
  }

  /** The events, in order. */
  function Run(cfg: Config, co: Coroutine, s: State, evs: seq<Event>): State
    decreases |evs|
  {
    if evs == [] then s else Run(cfg, co, Apply(cfg, co, s, evs[0]), evs[1..])
  }
}

=== FILE: scenarios.dfy ===
/** Whole computations, from `raco(...)` to the delivery, for concrete
    generators: a thunk, a rejected promise, a doubled `next`, a parallel
    group, and the run that shows the double callback of the catch branch as
    written. */
module Scenarios {
  import opened Values
  import opened Yieldables
  import opened Entry
  import opened Resolver
  import opened Properties
  import opened Raco

  const GenFn := Obj(0, Caps(false, true, false, true, false))
  const Callback := Obj(1, Caps(false, false, false, true, false))
  const AThunk := Obj(2, Caps(false, false, false, true, false))
  const APromise := Obj(3, Caps(true, false, false, false, false))
  const Defaults := Config(true, false, None)

  /** `function* () { const x = yield thunk; return x + 1 }` */
  function AddOne(h: seq<Input>): Outcome {
    if |h| <= 1 then Outcome([], Yielded(AThunk))
    else
      match h[1]
      case Inject(e) => Outcome([], Threw(e))
      case Send(v) => Outcome([], Returned(if v.Num? then Num(v.n + 1) else Undefined))
  }

  /** The state after the first resume of `AddOne`: the thunk is handed off. */
  const AddOneStarted := Initial(CallbackMode).(history := [Send(Undefined)],
                                                handoffs := [Handoff(Thunk, AThunk)])

  lemma AddOneFirstStep()
    ensures Step(Defaults, AddOne, Initial(CallbackMode), []) == AddOneStarted
  {
    assert AddOne([Send(Undefined)]) == Outcome([], Yielded(AThunk));
  }

  lemma AddOneStarts()
    ensures Launch(Defaults, AddOne, GenFn, [Callback]).state == AddOneStarted
  {
    AddOneFirstStep();
    assert Launch(Defaults, AddOne, GenFn, [Callback]).mode == CallbackMode;
  }

  lemma AddOneResumes()
    ensures var s := Apply(Defaults, AddOne, AddOneStarted, Resolve(Invoked([Null, Num(42)])));
            s.queue == [[Null, Num(43)]] && !s.iterLive && !s.done && s.outs == []
  {
    assert CallbackArgs(Invoked([Null, Num(42)])) == [Null, Num(42)];
    assert InputFor([Null, Num(42)]) == Send(Num(42));
    assert AddOne([Send(Undefined), Send(Num(42))]) == Outcome([], Returned(Num(43)));
  }

  /** A thunk resolving to 42 yields a final result of 43, delivered once. */
  lemma ThunkThenReturn()
    ensures var s := Launch(Defaults, AddOne, GenFn, [Callback]).state;
            Run(Defaults, AddOne, s, [Resolve(Invoked([Null, Num(42)])), TaskRuns]).outs
              == [[Null, Num(43)]]
  {
    AddOneStarts();
    AddOneResumes();
    var evs := [Resolve(Invoked([Null, Num(42)])), TaskRuns];
    var s2 := Apply(Defaults, AddOne, AddOneStarted, evs[0]);
    var s3 := Apply(Defaults, AddOne, s2, TaskRuns);
    assert s3 == Finish(s2.(ticking := false, queue := []), [Null, Num(43)]);
    assert Run(Defaults, AddOne, AddOneStarted, evs) == Run(Defaults, AddOne, s2, evs[1..]);
    assert Run(Defaults, AddOne, s2, evs[1..]) == Run(Defaults, AddOne, s3, []);
  }

  /** `function* () { return yield promise }` */
  function AwaitPromise(h: seq<Input>): Outcome {
    if |h| <= 1 then Outcome([], Yielded(APromise))
    else
      match h[1]
      case Inject(e) => Outcome([], Threw(e))
      case Send(v) => Outcome([], Returned(v))
  }

  /** An unhandled rejection ends the computation with that reason, and a
      falsy reason is replaced by a fresh error; in promise mode the promise
      rejects. */
  lemma RejectionPropagates(reason: Value)
    ensures var s := Launch(Defaults, AwaitPromise, GenFn, []).state;
            var r := Apply(Defaults, AwaitPromise, s, Resolve(Rejected(reason)));
            && r.outs == [[OrFreshError(reason)]]
            && Delivered(r) == RejectedWith(OrFreshError(reason))
  {
  }

  /** `function* (next) { next(); next(); }`: the second synchronous call is
      reported once as the multiple-callback error, and the task the first call
      queued then does nothing. */
  function CallsTwice(h: seq<Input>): Outcome {
    Outcome([CallNext([]), CallNext([])], Returned(Undefined))
  }

  lemma MultipleCallbacksReportedOnce()
    ensures var s := Launch(Defaults, CallsTwice, GenFn, [Callback]).state;
            && s.outs == [[MultipleCallbacksError]]
            && Run(Defaults, CallsTwice, s, [TaskRuns]).outs == [[MultipleCallbacksError]]
  {
  }

  /** `function* (next) { next(); next(); throw boom }`. */
  const Boom := Error("boom")

  function CallsTwiceThenThrows(h: seq<Input>): Outcome {
    Outcome([CallNext([]), CallNext([])], Threw(Boom))
  }

  /** The catch branch as written invokes the callback a second time, with the
      thrown error, after the multiple-callback error was already delivered;
      the guarded catch branch leaves the first delivery alone. */
  lemma SecondCallbackAfterThrow()
    ensures var s0 := Initial(CallbackMode).(history := [Send(Undefined)]);
            var s1 := ApplyCalls(s0, CallsTwiceThenThrows(s0.history).calls);
            && s1.done
            && CatchAsWritten(s1, Boom).outs == [[MultipleCallbacksError], [Boom]]
            && Catch(s1, Boom).outs == [[MultipleCallbacksError]]
            && Launch(Defaults, CallsTwiceThenThrows, GenFn, [Callback]).state == Catch(s1, Boom)
  {
  }

  /** `function* (next) { next.push(); next.push(); return yield next.all() }`:
      the two pushes share one group, `all` hands it `next`, and the group's
      single call of `next` with the collected list becomes the result. */
  function TwoInParallel(h: seq<Input>): Outcome {
    if |h| <= 1 then Outcome([CallPush, CallPush, CallAll], Yielded(Undefined))
    else
      match h[1]
      case Inject(e) => Outcome([], Threw(e))
      case Send(v) => Outcome([], Returned(v))
  }

  /** The state after the first resume of `TwoInParallel`: group 0 was asked
      for all its results and the slot is empty again. */
  const ParallelStarted := Initial(CallbackMode).(history := [Send(Undefined)],
                                                  groups := 1, requests := [AllOf(0)])

  lemma ParallelFirstStep()
    ensures Step(Defaults, TwoInParallel, Initial(CallbackMode), []) == ParallelStarted
  {
    var s0 := Initial(CallbackMode).(history := [Send(Undefined)]);
    var calls := [CallPush, CallPush, CallAll];
    assert TwoInParallel([Send(Undefined)]) == Outcome(calls, Yielded(Undefined));
    assert Step(Defaults, TwoInParallel, Initial(CallbackMode), [])
        == Settle(None, ApplyCalls(s0, calls), Undefined);
    assert ApplyCalls(s0, calls) == ApplyCalls(Push(s0), calls[1..]);
    assert ApplyCalls(Push(s0), calls[1..]) == ApplyCalls(Push(Push(s0)), calls[2..]);
    assert ApplyCalls(Push(Push(s0)), calls[2..]) == All(Push(Push(s0)));
  }

  lemma ParallelStarts()
    ensures Launch(Defaults, TwoInParallel, GenFn, [Callback]).state == ParallelStarted
  {
    ParallelFirstStep();
    assert Launch(Defaults, TwoInParallel, GenFn, [Callback]).mode == CallbackMode;
  }

  lemma ParallelCompletes(r: Args, v: Value)
    requires r == [Null, v] && !v.Obj?
    ensures var s2 := Apply(Defaults, TwoInParallel, ParallelStarted, Invoke(CallNext(r)));
            var s3 := Apply(Defaults, TwoInParallel, s2, TaskRuns);
            s3.queue == [r] && !s3.iterLive && !s3.done
  {
    var s2 := Apply(Defaults, TwoInParallel, ParallelStarted, Invoke(CallNext(r)));
    assert s2.queue == [r];
    var t := s2.(ticking := false, queue := []);
    assert Apply(Defaults, TwoInParallel, s2, TaskRuns) == Step(Defaults, TwoInParallel, t, r);
    assert t.history + [InputFor(r)] == [Send(Undefined), Send(v)];
    assert Classify(v, None) == NotYieldable;
    assert TwoInParallel([Send(Undefined), Send(v)]) == Outcome([], Returned(v));
  }

  lemma ParallelAllResult(a: Value, b: Value)
    ensures var s := Launch(Defaults, TwoInParallel, GenFn, [Callback]).state;
            && s.requests == [AllOf(0)]
            && s.parallel.None?
            && Run(Defaults, TwoInParallel, s,
                   [Invoke(CallNext([Null, List([a, b])])), TaskRuns, TaskRuns]).outs
                 == [[Null, List([a, b])]]
  {
    ParallelStarts();
    var r := [Null, List([a, b])];
    ParallelCompletes(r, List([a, b]));
    var evs := [Invoke(CallNext(r)), TaskRuns, TaskRuns];
    var s2 := Apply(Defaults, TwoInParallel, ParallelStarted, evs[0]);
    var s3 := Apply(Defaults, TwoInParallel, s2, TaskRuns);
    var s4 := Apply(Defaults, TwoInParallel, s3, TaskRuns);
    assert s4 == Finish(s3.(ticking := false, queue := []), r);
    assert Run(Defaults, TwoInParallel, ParallelStarted, evs) == Run(Defaults, TwoInParallel, s2, evs[1..]);
    assert Run(Defaults, TwoInParallel, s2, evs[1..]) == Run(Defaults, TwoInParallel, s3, evs[2..]);
    assert Run(Defaults, TwoInParallel, s3, evs[2..]) == Run(Defaults, TwoInParallel, s4, []);
  }
}

=== FILE: values.dfy ===
/** The value universe the resolver inspects.

    JavaScript values are reduced to what the resolver looks at: their
    truthiness and, for objects, which capabilities they expose (a `then`
    method, a `subscribe` method, `next`/`throw` methods, being callable,
    being a generator function). See index.js:4-15 for the duck-typing
    predicates modelled here.
 */
module Values {

  /** An optional value: an absent option, callback or hook is `None`. */
  datatype Option<+T> = None | Some(value: T)

  /** Capability flags of an object value. `isGenFn` stands for the answer of
      the external `is-generator-function` package; `isGen` stands for "has
      callable `next` and `throw` members". */
  datatype Caps = Caps(
    hasThen: bool,
    isGenFn: bool,
    isGen: bool,
    isFunction: bool,
    hasSubscribe: bool
  )

  /** No capability at all: what every primitive value has. */
  const NoCaps := Caps(false, false, false, false, false)

  /** The capabilities an actual object can have: a generator function is a
      function. */
  type ObjCaps = c: Caps | c.isGenFn ==> c.isFunction witness NoCaps

  datatype Value =
    | Undefined
    | Null
    | Bool(b: bool)
    | Num(n: int)
    | Str(s: string)
    | Error(message: string)
    | List(items: seq<Value>)
    | Obj(id: nat, caps: ObjCaps)

  /** JavaScript truthiness (NaN is not part of this universe). */
  predicate Truthy(v: Value) {
    match v
    case Undefined => false
    case Null => false
    case Bool(b) => b
    case Num(n) => n != 0
    case Str(s) => s != ""
    case _ => true
  }

  function CapsOf(v: Value): Caps {
    if v.Obj? then v.caps else NoCaps
  }

  /** A value is callable exactly when its type tag is function (index.js:5);
      only objects are callable. */
  predicate IsFunction(v: Value): (b: bool)
    ensures b <==> v.Obj? && v.caps.isFunction
  {
    CapsOf(v).isFunction
  }

  /** The external generator-function test; a generator function is callable. */
  predicate IsGeneratorFunction(v: Value): (b: bool)
    ensures b <==> v.Obj? && v.caps.isGenFn
    ensures b ==> IsFunction(v)
  {
    CapsOf(v).isGenFn
  }

  /** A generator object is a truthy value with callable `next` and `throw`
      methods (index.js:8); no primitive qualifies. */
  predicate IsGenerator(v: Value): (b: bool)
    ensures b <==> v.Obj? && v.caps.isGen
  {
    Truthy(v) && CapsOf(v).isGen
  }

  /** A thenable is a truthy value with a callable `then` method (index.js:11);
      only objects qualify. */
  predicate IsPromise(v: Value): (b: bool)
    ensures b <==> v.Obj? && v.caps.hasThen
  {
    Truthy(v) && CapsOf(v).hasThen
  }

  /** An observable is a truthy value with a callable `subscribe` method
      (index.js:14); only objects qualify. */
  predicate IsObservable(v: Value): (b: bool)
    ensures b <==> v.Obj? && v.caps.hasSubscribe
  {
    Truthy(v) && CapsOf(v).hasSubscribe
  }

  /** The positional arguments of one callback invocation. */
  type Args = seq<Value>

  /** `arguments[i]`, which is `undefined` past the end. */
  function ArgAt(args: Args, i: nat): Value {
    if i < |args| then args[i] else Undefined
  }

  /** The message of the error reported for a second `next` within one iteration. */
  const MultipleCallbacksMessage := "Multiple callbacks within one iteration"

  /** A new error with no message, which replaces a falsy rejection reason
      (index.js:48). */
  const FreshError := Error("")

  /** The error reported when `next` is called again while a step is pending
      and the iterator is live (index.js:153). */
  const MultipleCallbacksError := Error(MultipleCallbacksMessage)
}

=== FILE: yieldables.dfy ===
/** Classification of a yielded value into one of the resolution strategies
    of `_yieldable` (index.js:42-75), and the arguments each strategy hands to
    its callback. */
module Yieldables {
  import opened Values

  /** The optional custom hook: when present, its decision for each value. */
  type Hook = Option<Value -> bool>

  /** The strategies, listed in the order `_yieldable` tries them. */
  datatype Kind = Thenable | Generator | Thunk | Subscribable | Custom | NotYieldable

  /** Position of a strategy in the order of tests. */
  function Rank(k: Kind): nat {
    match k
    case Thenable => 0
    case Generator => 1
    case Thunk => 2
    case Subscribable => 3
    case Custom => 4
    case NotYieldable => 5
  }

  /** Whether `v` passes the test of strategy `k`, in isolation. */
  predicate Matches(v: Value, k: Kind, hook: Hook) {
    match k
    case Thenable => IsPromise(v)
    case Generator => IsGeneratorFunction(v) || IsGenerator(v)
    case Thunk => IsFunction(v)
    case Subscribable => IsObservable(v)
    case Custom => hook.Some? && hook.value(v)
    case NotYieldable => true
  }

  /** The strategy `_yieldable` picks: the first one, in test order, whose test
      the value passes. */
  function Classify(v: Value, hook: Hook): (k: Kind)
    ensures Matches(v, k, hook)
    ensures forall j :: Rank(j) < Rank(k) ==> !Matches(v, j, hook)
  {
    if IsPromise(v) then Thenable
    else if IsGeneratorFunction(v) || IsGenerator(v) then Generator
    else if IsFunction(v) then Thunk
    else if IsObservable(v) then Subscribable
    else if hook.Some? && hook.value(v) then Custom
    else NotYieldable
  }

  /** First-match characterisation: a strategy is chosen exactly when the value
      passes its test and fails every earlier one. */
  lemma ClassifyIsFirstMatch(v: Value, hook: Hook, k: Kind)
    ensures Classify(v, hook) == k <==>
              (Matches(v, k, hook) && forall j :: Rank(j) < Rank(k) ==> !Matches(v, j, hook))
  {
  }

  /** A callable thenable is resolved as a promise, not called as a thunk. */
  lemma CallableThenableIsThenable(v: Value, hook: Hook)
    requires IsPromise(v) && IsFunction(v)
    ensures Classify(v, hook) == Thenable
  {
  }

  /** A plain function that also has `subscribe` is called as a thunk. */
  lemma SubscribableFunctionIsThunk(v: Value, hook: Hook)
    requires IsFunction(v) && IsObservable(v)
    requires !IsPromise(v) && !IsGeneratorFunction(v) && !IsGenerator(v)
    ensures Classify(v, hook) == Thunk
  {
  }

  /** Without a hook, nothing is classified as `Custom`; a falsy value is never
      yieldable unless the hook accepts it. */
  lemma NoHookNoCustom(v: Value)
    ensures Classify(v, None) != Custom
    ensures !Truthy(v) ==> Classify(v, None) == NotYieldable
  {
  }

  /** How a resolution strategy eventually invokes its callback. */
  datatype Resolution =
    | Fulfilled(value: Value)   // a thenable's success handler
    | Rejected(reason: Value)   // a thenable's failure handler
    | Emitted(value: Value)     // an observable's first value
    | Failed(reason: Value)     // an observable's error handler
    | Invoked(args: Args)       // a thunk, nested generator or custom hook calling back

  /** A truthy rejection reason is kept; a falsy one is replaced by a new
      error with no message (index.js:48). */
  function OrFreshError(reason: Value): (e: Value)
    ensures Truthy(e)
    ensures Truthy(reason) ==> e == reason
    ensures !Truthy(reason) ==> e == FreshError
  {
    if Truthy(reason) then reason else FreshError
  }

  /** The arguments the strategy passes to its callback. */
  function CallbackArgs(r: Resolution): (a: Args)
    ensures (r.Rejected? || r.Failed?) ==> |a| == 1 && Truthy(a[0])
    ensures (r.Rejected? || r.Failed?) && Truthy(r.reason) ==> a == [r.reason]
    ensures (r.Rejected? || r.Failed?) && !Truthy(r.reason) ==> a == [FreshError]
    ensures (r.Fulfilled? || r.Emitted?) ==> a == [Null, r.value] && !Truthy(ArgAt(a, 0))
    ensures r.Invoked? ==> a == r.args
  {
    match r
    case Fulfilled(v) => [Null, v]
    case Rejected(e) => [OrFreshError(e)]
    case Emitted(v) => [Null, v]
    case Failed(e) => [OrFreshError(e)]
    case Invoked(args) => args
  }

  /** A failure reaches the callback as its (truthy) first argument, and a
      success never does. */
  lemma FailureIffTruthyError(r: Resolution)
    requires !r.Invoked?
    ensures Truthy(ArgAt(CallbackArgs(r), 0)) <==> (r.Rejected? || r.Failed?)
  {
  }
}
